=== FILE: README.md ===
# Espresso logbook: record repository and numeric-input helpers

This project models two parts of a small espresso logbook app.

The first is the **record repository**. It keeps two collections, bean types and extractions (one logged shot each), under two keys of the device's key-value store. Each collection is stored as one JSON array. Every read takes the array whole and sorts it for display. Every change also edits the sorted array in memory and writes it back whole. Bean types list oldest first. Extractions list newest first. Ties keep their stored order, because `Array.prototype.sort` is stable.

A bean type cannot be deleted while any extraction refers to it. A new extraction must name a bean type and carry four finite numbers. The repository does not check that the named bean type exists.

The second part is the **numeric helpers** behind the entry form:
- `clamp` limits a value to a range.
- `roundToStep` moves a value to the nearest multiple of a step.
- `sanitizeNumericInput` and `parseNumericInput` clean and parse typed text that uses a decimal comma or point.
- `countDecimals` and `stripTrailingZeros` are string helpers.

Modules:

- `Wrappers`: `Option`, `Result` and `Outcome`.
- `Js`: the JavaScript semantics the code relies on.
  - A number is finite, NaN or an infinity.
  - The ECMAScript whitespace set.
  - `String.prototype.trim`, with a declarative description (`IsTrimOf`) and a proof that it is unique.
- `Seqs`: `Array.prototype.filter` and counting (the `reduce` in `countExtractionsForBeanType`).
- `StableSort`: one stable sort on an integer key, and its specification.
  - The specification says the result is sorted and keeps the relative order of equal-key records.
  - It is proved unique, idempotent, a permutation, and compatible with filtering.
- `Types`: the record shapes.
- `BlobStore`: one storage key. `Slot` is the key's raw state: missing, the empty string, a decodable value, or unreadable. The `beanTypes` and `extractions` fields of a `Store` stand for the keys `bean_types` and `extractions`.
- `Repository`: the repository operations.
  - Each is a function from a `Store` to a `Step`, which holds the result and the store left behind.
  - A thrown error is a `Failure` result.
  - The generated id and `Date.now()` are parameters.
- `RepositoryProperties`: properties that relate several operations, and a walk-through.
  - Finite numbers are preserved by every operation.
  - Referential integrity is preserved by every operation except an `addExtraction` that names a bean type not in the store, which the repository accepts.
  - Deletes always leave the store in list order. Adds do so when the clock does not go backwards.
  - The walk-through adds a bean, logs a shot, is refused deleting the bean, deletes the shot and then the bean.
- `NumberUtil`: the numeric helpers.

## Model

| member | source | states |
|---|---|---|
| `BlobStore.GetStoredJSON` | src/storage/asyncStorage.ts:5-17 | a read fails exactly when the stored text cannot be read or decoded, and the failure is the load error; a missing key or an empty stored string yields the fallback |
| `BlobStore.SetStoredJSON` | src/storage/asyncStorage.ts:19-26 | a write succeeds exactly when the device accepts it; a refused write is the save error and leaves the key as it was |
| `BlobStore.ReadAfterWrite` | src/storage/asyncStorage.ts:5-26 | reading a key after a successful write yields the written value, whatever the fallback |
| `Js.Trim` | src/storage/repositories.ts:20 | the result is the input minus its leading and trailing whitespace: a slice with only whitespace outside it, not beginning or ending with whitespace |
| `Js.TrimUnique` | src/utils/number.ts:16 | the trimmed text is the only string with that description, so any description-satisfying string equals `Trim` |
| `Js.TrimIdempotent` | src/utils/number.ts:16 | trimming trimmed text changes nothing |
| `StableSort.Sort` | src/storage/repositories.ts:16 | the sort result is ordered by key, keeps the stored order among equal keys, and is a permutation of the input |
| `StableSort.StableSortUnique` | src/storage/repositories.ts:51 | two stable sorts of the same list by the same key are the same list, so the listing is fully determined by the stored array |
| `StableSort.SortIdempotent` | src/storage/repositories.ts:51 | sorting a listing again gives the same listing |
| `StableSort.FilterAfterSort` | src/storage/repositories.ts:43-44 | filtering a sorted listing equals stable-sorting the filtered stored array |
| `Seqs.Filter` | src/storage/repositories.ts:44 | keeps exactly the elements that satisfy the predicate: everything kept satisfies it and came from the input, and every satisfying element of the input is kept |
| `Seqs.CountWhere` | src/storage/repositories.ts:82-84 | the count equals the length of the filtered sequence, so it is the number of matching elements |
| `Seqs.CountPermutation` | src/storage/repositories.ts:81-84 | counting matching records gives the same number in stored and in listed order |
| `Repository.GetBeanTypes` | src/storage/repositories.ts:14-17 | fails only on an unreadable key; otherwise lists the stored bean types oldest first, equal timestamps in stored order, no record lost or added |
| `Repository.AddBeanType` | src/storage/repositories.ts:19-35 | a name that trims to nothing is refused with "Bean name is required." before storage is touched; a read or write failure leaves the store unchanged; on success the new bean carries the trimmed name, the given id and time, and is written after the oldest-first listing of the stored beans |
| `Repository.CountExtractionsForBeanType` | src/storage/repositories.ts:80-85 | the number of stored extractions whose `beanTypeId` equals the id, positive exactly when one exists |
| `Repository.DeleteBeanType` | src/storage/repositories.ts:37-47 | refuses with the exact reference count, and writes nothing, exactly when some extraction refers to the id; otherwise an unreadable bean-types key is the load error, a refused write is the save error, and every failure leaves the store unchanged; on success it writes the oldest-first listing without that id, leaving the extractions untouched |
| `Repository.GetExtractions` | src/storage/repositories.ts:49-52 | fails only on an unreadable key; otherwise lists the stored extractions newest first, equal timestamps in stored order, as a permutation |
| `Repository.FirstWithId` | src/storage/repositories.ts:56 | the position of the first record with the id: every earlier record has another id, and the position is past the end only when no record has it |
| `Repository.GetExtractionById` | src/storage/repositories.ts:54-57 | nothing exactly when no stored extraction has the id; otherwise the first match in the newest-first listing, a stored record with that id and no older than any other record with it |
| `Repository.FirstWithIdIsNewest` | src/storage/repositories.ts:56 | in a newest-first list the first record with an id has the latest timestamp among the records with that id |
| `Repository.ErrorMessageDistinguishes` | src/storage/repositories.ts:22-102 | the five failure messages (the validation messages at src/storage/repositories.ts:22, :96 and :102, and the load and save errors at src/storage/asyncStorage.ts:15 and :24) are pairwise different, so the message alone identifies the failure |
| `Repository.EnsureValidExtractionInput` | src/storage/repositories.ts:87-105 | an empty bean type id gives "Bean type is required."; otherwise any of the four numeric fields that is not a finite number gives "Invalid extraction values."; the input passes exactly when neither applies |
| `Repository.FirstNonFinite` | src/storage/repositories.ts:99-104 | the fields are checked in order and the first one that is not a finite number is found |
| `Repository.AddExtraction` | src/storage/repositories.ts:59-72 | invalid input is refused before storage is touched and read or write failures leave the store unchanged; on success the record copies the input's fields with the given id and time, has finite numbers, and is written in front of the newest-first listing of the stored extractions |
| `Repository.DeleteExtraction` | src/storage/repositories.ts:74-78 | succeeds exactly when the key can be read and written, even for an unknown id; the written list has no record with the id and is the newest-first listing of the others |
| `RepositoryProperties.ListingOrderedBeans` | src/storage/repositories.ts:14-17 | a store whose beans are already oldest first is listed exactly as stored |
| `RepositoryProperties.ListingOrderedExtractions` | src/storage/repositories.ts:49-52 | a store whose extractions are already newest first is listed exactly as stored |
| `RepositoryProperties.AddBeanTypeListsNewBeanLast` | src/storage/repositories.ts:25-33 | a bean added no earlier than the stored ones is listed after the previous listing, and the store is left in list order |
| `RepositoryProperties.AddExtractionListsNewFirst` | src/storage/repositories.ts:68-70 | an extraction added no earlier than the stored ones is listed before the previous listing, and the store is left in list order |
| `RepositoryProperties.AddThenGetById` | src/storage/repositories.ts:54-72 | looking up a fresh id right after adding with it returns the record built from the input |
| `RepositoryProperties.DeleteBeanTypeCountsReferences` | src/storage/repositories.ts:37-41 | a deletion is refused exactly when the reference count is positive, and reports that count |
| `RepositoryProperties.DeleteBeanTypeRemovesOnlyThatId` | src/storage/repositories.ts:43-45 | after a deletion every record with the id is gone and every other record keeps its multiplicity |
| `RepositoryProperties.DeleteUnknownBeanTypeKeepsBeans` | src/storage/repositories.ts:43-45 | deleting an unknown id writes back the full oldest-first listing |
| `RepositoryProperties.DeleteBeanTypeLeavesListOrder` | src/storage/repositories.ts:43-45 | after a deletion the beans are stored in list order, so the next listing returns them as written |
| `RepositoryProperties.DeleteExtractionRemovesOnlyThatId` | src/storage/repositories.ts:74-78 | after a deletion every extraction with the id is gone and every other keeps its multiplicity |
| `RepositoryProperties.DeleteUnknownExtraction` | src/storage/repositories.ts:74-78 | deleting an unknown id writes back the full newest-first listing; a store already in that order is left exactly as it was |
| `RepositoryProperties.DeleteBeanTypeKeepsReferencesResolved` | src/storage/repositories.ts:37-47 | if every extraction refers to a stored bean type before a bean-type deletion, it still does after |
| `RepositoryProperties.AddBeanTypeKeepsReferencesResolved` | src/storage/repositories.ts:19-35 | adding a bean type never leaves an extraction without its bean type |
| `RepositoryProperties.AddExtractionKeepsReferencesResolved` | src/storage/repositories.ts:59-72 | adding an extraction that names a stored bean type keeps every reference resolved |
| `RepositoryProperties.AddExtractionAcceptsUnknownBeanType` | src/storage/repositories.ts:95-97 | an extraction naming a bean type that is not stored is accepted, leaving a dangling reference |
| `RepositoryProperties.AddExtractionKeepsNumbersFinite` | src/storage/repositories.ts:99-104 | if all stored extractions have finite numeric fields, they still do after an addition |
| `RepositoryProperties.DeleteExtractionKeepsNumbersFinite` | src/storage/repositories.ts:74-78 | if all stored extractions have finite numeric fields, they still do after a deletion |
| `RepositoryProperties.WalkAddBean` | src/storage/repositories.ts:19-35 | adding "Ethiopia Guji" to an empty store stores exactly that bean |
| `RepositoryProperties.WalkListBean` | src/storage/repositories.ts:14-17 | the stored bean is then listed |
| `RepositoryProperties.WalkAddShot` | src/storage/repositories.ts:59-72 | logging a shot with it (grind setting 15, 18 g in, 36 g out, 30 s) stores exactly that shot, which is then listed |
| `RepositoryProperties.WalkRefuseBean` | src/storage/repositories.ts:37-41 | deleting the bean is then refused with a count of 1 and the store is unchanged |
| `RepositoryProperties.WalkDeleteShot` | src/storage/repositories.ts:74-78 | deleting the shot empties the extraction list |
| `RepositoryProperties.WalkDeleteBean` | src/storage/repositories.ts:37-47 | deleting the bean then succeeds and empties the bean list |
| `NumberUtil.Clamp` | src/utils/number.ts:1-3 | with a non-empty range the result lies in it, equals the value when that is inside, and the nearer bound otherwise; with an inverted range the result is the maximum |
| `NumberUtil.RoundHalfUp` | src/utils/number.ts:10 | `Math.round` gives the integer within half of the value, halves rounding up |
| `NumberUtil.StepMultipleBounds` | src/utils/number.ts:10 | a whole step count within half of value/step gives a multiple of the step within half a step of the value |
| `NumberUtil.RoundToStep` | src/utils/number.ts:5-13 | a non-finite value or step, or a step that is not positive, returns the value; otherwise the result is a whole multiple of the step, more than half a step below the value and at most half a step above it |
| `NumberUtil.RoundToStepIdempotent` | src/utils/number.ts:5-13 | rounding an already rounded value to the same step changes nothing |
| `NumberUtil.ReplaceCommas` | src/utils/number.ts:16 | every comma becomes a point and every other character is kept in place |
| `NumberUtil.SanitizeNumericInput` | src/utils/number.ts:15-17 | the result is the comma-replaced text trimmed, and contains no comma |
| `NumberUtil.SanitizeIdempotent` | src/utils/number.ts:15-17 | cleaning cleaned text changes nothing |
| `NumberUtil.ParseableText` | src/utils/number.ts:19-36 | parsing stops early exactly for empty cleaned text or a lone ".", "-" or "+"; otherwise the text converted is non-empty and is the cleaned text without one trailing point |
| `NumberUtil.ParseNumericInput` | src/utils/number.ts:19-40 | the result is present exactly when the text gets past the early rejections and `Number()` of it is finite, and then it is that number |
| `NumberUtil.ParseAfterSanitize` | src/utils/number.ts:19-20 | parsing pre-cleaned text gives the same as parsing the raw text |
| `NumberUtil.TrailingPointIgnored` | src/utils/number.ts:29-32 | a partly typed decimal such as "12." parses like "12" |
| `NumberUtil.IndexOf` | src/utils/number.ts:59 | the position of the first occurrence of the character, or -1 exactly when it does not occur |
| `NumberUtil.CountDecimals` | src/utils/number.ts:57-61 | the number of characters after the first point, or 0 when there is no point |
| `NumberUtil.CountDecimalsOfDecimal` | src/utils/number.ts:57-61 | for a whole part without a point, a point and a fraction, the count is the fraction's length |
| `NumberUtil.FormStepDecimals` | src/utils/number.ts:57-61 | the form's steps 0.25, 0.1 and 1 have 2, 1 and 0 decimals |
| `NumberUtil.ZeroRunMatchStart` | src/utils/number.ts:64 | the leftmost position from which the pattern `\.?0+$` matches to the end, and no match exactly when the text does not end in `0` |
| `NumberUtil.StripTrailingZeros` | src/utils/number.ts:63-66 | removes the leftmost match of the pattern, and gives "0" for an empty remainder, so the result is never empty |
| `NumberUtil.StripExamples` | src/utils/number.ts:63-66 | "1.50" becomes "1.5", "2.00" becomes "2", "0.0" becomes "0", and "12.5" is unchanged |
| `NumberUtil.StripDropsIntegerZeros` | src/utils/number.ts:63-66 | as written, "100" becomes "1" |
| `NumberUtil.StripFractionZeros` | src/utils/number.ts:63-66 | text without a point is left unchanged, and the result is never empty |
| `NumberUtil.StripFractionZerosKeepsWhole` | src/utils/number.ts:63-66 | the whole part of a decimal string always survives; what follows is either nothing, when the fraction was all zeros, or the point and a prefix of the fraction followed only by zeros in the input, ending in a digit other than `0` (or the bare point when the fraction was empty) |

## Left out

- Encoding and decoding of JSON are not modelled. A key holds a decoded value, the empty string, nothing, or something that cannot be read back (`Slot.Unreadable`).
- BlobStore.ReadAfterWrite: JSON turns NaN and the infinities into `null`, so a non-finite number does not survive a write, while the model's slot keeps it. Validation means the repository never writes one itself.
- A stored value of the wrong shape (not an array, or records missing fields) is not modelled. Decoded arrays are well-typed.
- The device's refusal to write is the `writable` flag of the store. A refused write leaves the key unchanged.
- `console.error` logging on storage failures has no observable effect on the result and is left out.
- Asynchrony is not modelled. Each operation runs to completion on a store value. Interleaved read-modify-write cycles that could lose an update are out of scope.
- `generateId` (src/utils/id.ts) and `Date.now()` are parameters of `AddBeanType` and `AddExtraction`. Their randomness and clock are not modelled.
- `createdAt` is a mathematical integer. The comparator's subtraction cannot lose precision at realistic timestamps.
- The spread of the input in `addExtraction` copies any extra run-time properties. The model copies exactly the six declared fields. The spread comes after `id` and `createdAt` (src/storage/repositories.ts:62-66), so an `id` or `createdAt` on the input would override the generated ones; the model's input type has neither.
- `beanTypeId` is a string. The missing and non-string run-time values that the falsiness test also rejects are not modelled separately from "".
- `addExtraction` prepends to the newest-first listing returned by `getExtractions()` (src/storage/repositories.ts:68), not to the array as stored.
- `parseNumericInput`'s guard against an empty text after dropping a trailing point is not in the model's body. `NumberUtil.ParseableText` proves that the text is never empty at that point, so the guard can never fire.
- NumberUtil.RoundToStep: computes with exact reals. It leaves out floating-point error and the final `Number(rounded.toFixed(stepDecimals))` re-rounding to the step's decimal count. For the steps the app uses (0.25, 0.1 and 1) the floating-point result approximates the stated multiple. For a step below 1e-6, whose `toString` has an exponent, the re-rounding goes to fewer decimals than the step has, and the result can be far from the value, e.g. `roundToStep(0.3, 1e-7)` is 0.
- NumberUtil.Clamp: works on reals. NaN, the infinities and negative zero are not modelled.
- NumberUtil.ParseNumericInput: JavaScript's `Number()` conversion of a string is the parameter `toNumber`. Its grammar is not modelled.
- NumberUtil.CountDecimals: takes the step's decimal string. `Number.prototype.toString`, including its exponent forms for very small steps, is not modelled.
- `formatFixed`, `formatStep` and `formatStepTrimmed` are left out because they are wrappers around `Number.prototype.toFixed`, which is floating-point formatting. Their decimal count (`CountDecimals`) and their trailing-zero stripping (`StripTrailingZeros`) are modelled.
- The screens and components (`add.tsx`, `StepperInput.tsx` and others) that call these helpers are not part of this model.

## Findings

| source | as written | input that shows it | evidently intended | confidence | as-written member | corrected member |
|---|---|---|---|---|---|---|
| src/utils/number.ts:63-66 | the pattern `\.?0+$` also matches the trailing zeros of a whole number | "100" becomes "1" | only zeros after a decimal point, and then the bare point, are removed, so "100" stays "100" | medium, not executed; the only caller, `formatStepTrimmed`, is itself not called anywhere in the app, so no screen shows the wrong text | `NumberUtil.StripDropsIntegerZeros` | `NumberUtil.StripFractionZerosKeepsWhole` |

=== FILE: blob_store.dfy ===
/** One key of the device's key-value store holding a JSON-encoded value.
    Encoding and decoding are abstracted: a slot holds either the decoded
    value or text that cannot be read back. */
module BlobStore {
  import opened Wrappers

  /** The raw state of one storage key: never written, holding the empty
      string, holding a decodable value, or failing to read or decode. */
  datatype Slot<T> = Missing | EmptyText | Json(value: T) | Unreadable

  datatype StorageError = ReadFailed | WriteFailed

  /** The user-facing text of each storage failure. */
  function Message(e: StorageError): string {
    match e
    case ReadFailed => "We couldn't load your saved data."
    case WriteFailed => "We couldn't save your data."
  }

  /** `getStoredJSON`: a missing key or an empty stored string gives the
      fallback; anything unreadable is a read failure. */
  function GetStoredJSON<T>(slot: Slot<T>, fallback: T): (r: Result<T, StorageError>)
    ensures r.Failure? <==> slot.Unreadable?
    ensures r.Failure? ==> r.error == ReadFailed
    ensures (slot.Missing? || slot.EmptyText?) ==> r == Success(fallback)
  {
    match slot
    case Missing => Success(fallback)
    case EmptyText => Success(fallback)
    case Json(v) => Success(v)
    case Unreadable => Failure(ReadFailed)
  }

  /** `setStoredJSON`: replaces the value under the key, or fails with a
      write failure when the device refuses the write, leaving the slot. */
  function SetStoredJSON<T>(slot: Slot<T>, value: T, writable: bool): (r: (Outcome<StorageError>, Slot<T>))
    ensures r.0.Pass? <==> writable
    ensures r.0.Fail? ==> r.0.error == WriteFailed && r.1 == slot
  {
    if writable then (Pass, Json(value)) else (Fail(WriteFailed), slot)
  }

  /** Reading a key after a successful write gives back what was written,
      whatever the fallback. */
  lemma ReadAfterWrite<T>(slot: Slot<T>, value: T, fallback: T)
    ensures GetStoredJSON(SetStoredJSON(slot, value, true).1, fallback) == Success(value)
  {
  }
}

=== FILE: js.dfy ===
/** The parts of JavaScript's runtime the repository and the numeric helpers
    rely on: numbers that may be non-finite, and the whitespace
    `String.prototype.trim` removes. */
module Js {

  /** A JavaScript number. Finite values are modelled exactly as reals; the
      IEEE-754 rounding of finite values is not modelled. */
  datatype Number = Finite(value: real) | NaN | Infinity(negative: bool)

  /** `Number.isFinite` on a number. */
  predicate IsFinite(n: Number) {
    n.Finite?
  }

  /** ECMAScript WhiteSpace and LineTerminator code points. */
  predicate IsWhitespace(c: char) {
    || c == '\t' || c == '\n' || c == '\U{B}' || c == '\U{C}' || c == '\r' || c == ' '
    || c == '\U{A0}' || c == '\U{1680}' || ('\U{2000}' <= c <= '\U{200A}')
    || c == '\U{2028}' || c == '\U{2029}' || c == '\U{202F}' || c == '\U{205F}'
    || c == '\U{3000}' || c == '\U{FEFF}'
  }

  ghost predicate AllWhitespace(s: string) {
    forall i :: 0 <= i < |s| ==> IsWhitespace(s[i])
  }

  /** Neither end of `s` is whitespace. */
  ghost predicate IsTrimmed(s: string) {
    s == [] || (!IsWhitespace(s[0]) && !IsWhitespace(s[|s| - 1]))
  }

  /** `r` is what remains of `s` after removing whitespace, and only
      whitespace, from both ends until neither end is whitespace. */
  ghost predicate IsTrimOf(r: string, s: string) {
    exists i, j :: 0 <= i <= j <= |s| && r == s[i..j] && AllWhitespace(s[..i]) && AllWhitespace(s[j..]) && IsTrimmed(r)
  }

  /** The length of the whitespace run that starts `s`. */
  function LeadingWhitespace(s: string): (n: nat)
    ensures n <= |s|
    ensures forall i :: 0 <= i < n ==> IsWhitespace(s[i])
    ensures n < |s| ==> !IsWhitespace(s[n])
  {
    if s != [] && IsWhitespace(s[0]) then 1 + LeadingWhitespace(s[1..]) else 0
  }

  /** The length of the whitespace run that ends `s`. */
  function TrailingWhitespace(s: string): (n: nat)
    ensures n <= |s|
    ensures forall i :: |s| - n <= i < |s| ==> IsWhitespace(s[i])
    ensures n < |s| ==> !IsWhitespace(s[|s| - n - 1])
  {
    if s != [] && IsWhitespace(s[|s| - 1]) then 1 + TrailingWhitespace(s[..|s| - 1]) else 0
  }

  /** `String.prototype.trim`. */
  function Trim(s: string): (r: string)
    ensures IsTrimOf(r, s)
  {
    var i := LeadingWhitespace(s);
    var j := |s| - TrailingWhitespace(s[i..]);
    assert s[i..][..j - i] == s[i..j];
    assert forall k :: j <= k < |s| ==> s[k] == s[i..][k - i];
    s[i..j]
  }

  /** A whitespace prefix followed by a non-whitespace character (or the end)
      is exactly the leading run. */
  lemma LeadingWhitespaceIs(s: string, i: nat)
    requires i <= |s| && AllWhitespace(s[..i])
    requires i < |s| ==> !IsWhitespace(s[i])
    ensures LeadingWhitespace(s) == i
  {
    forall k | 0 <= k < i
      ensures IsWhitespace(s[k])
    {
      assert s[..i][k] == s[k];
    }
  }

  /** A whitespace suffix preceded by a non-whitespace character (or the
      start) is exactly the trailing run. */
  lemma TrailingWhitespaceIs(s: string, j: nat)
    requires j <= |s| && AllWhitespace(s[j..])
    requires 0 < j ==> !IsWhitespace(s[j - 1])
    ensures TrailingWhitespace(s) == |s| - j
  {
    forall k | j <= k < |s|
      ensures IsWhitespace(s[k])
    {
      assert s[j..][k - j] == s[k];
    }
  }

  /** A string made only of whitespace trims to the empty string. */
  lemma TrimAllWhitespace(s: string)
    requires AllWhitespace(s)
    ensures Trim(s) == []
  {
    LeadingWhitespaceIs(s, |s|);
  }

  /** Whitespace, then a non-empty trimmed middle, then whitespace, trims to
      the middle. */
  lemma TrimSurrounded(s: string, i: nat, j: nat)
    requires i < j <= |s| && AllWhitespace(s[..i]) && AllWhitespace(s[j..])
    requires !IsWhitespace(s[i]) && !IsWhitespace(s[j - 1])
    ensures Trim(s) == s[i..j]
  {
    LeadingWhitespaceIs(s, i);
    var u := s[i..];
    assert u[j - i - 1] == s[j - 1];
    assert u[j - i..] == s[j..];
    TrailingWhitespaceIs(u, j - i);
  }

  /** The trim of a string is uniquely determined by its specification. */
  lemma TrimUnique(r: string, s: string)
    requires IsTrimOf(r, s)
    ensures r == Trim(s)
  {
    var i, j :| 0 <= i <= j <= |s| && r == s[i..j] && AllWhitespace(s[..i]) && AllWhitespace(s[j..]) && IsTrimmed(r);
    if r == [] {
      assert s == s[..i] + s[j..];
      TrimAllWhitespace(s);
    } else {
      TrimSurrounded(s, i, j);
    }
  }

  /** Trimming twice is trimming once. */
  lemma TrimIdempotent(s: string)
    ensures Trim(Trim(s)) == Trim(s)
  {
    var r := Trim(s);
    assert r[0..|r|] == r;
    assert r[..0] == [] && r[|r|..] == [];
    TrimUnique(r, r);
  }
}

=== FILE: number_util.dfy ===
/** The numeric-text helpers of the entry form: clamping, rounding to a
    step, cleaning and parsing typed numbers, and decimal-string helpers. */
module NumberUtil {
  import opened Wrappers
  import opened Js

  function Max(a: real, b: real): real {
    if a >= b then a else b
  }

  function Min(a: real, b: real): real {
    if a <= b then a else b
  }

  /** `clamp`: `Math.min(Math.max(value, min), max)` on finite numbers. */
  function Clamp(value: real, min: real, max: real): (r: real)
    ensures min <= max ==> min <= r <= max
    ensures min <= value <= max ==> r == value
    ensures min <= max && value < min ==> r == min
    ensures value > max ==> r == max
    ensures min > max ==> r == max
  {
    Min(Max(value, min), max)
  }

  /** `Math.round` on a finite number: the nearest integer, halves upward. */
  function RoundHalfUp(x: real): (n: int)
    ensures x - 0.5 < n as real <= x + 0.5
  {
    (x + 0.5).Floor
  }

  lemma MulStrict(a: real, b: real, s: real)
    requires a < b && s > 0.0
    ensures a * s < b * s
  {
  }

  lemma MulWeak(a: real, b: real, s: real)
    requires a <= b && s > 0.0
    ensures a * s <= b * s
  {
  }

  lemma HalfStep(v: real, s: real)
    requires s > 0.0
    ensures (v / s - 0.5) * s == v - s / 2.0
    ensures (v / s + 0.5) * s == v + s / 2.0
  {
  }

  /** At most half a step above `v / s` steps is at most half a step above `v`. */
  lemma BelowHalfStepAbove(v: real, s: real, m: real)
    requires s > 0.0 && m <= v / s + 0.5
    ensures m * s <= v + s / 2.0
  {
    MulWeak(m, v / s + 0.5, s);
    HalfStep(v, s);
  }

  /** More than half a step below `v / s` steps is more than half a step below `v`. */
  lemma AboveHalfStepBelow(v: real, s: real, m: real)
    requires s > 0.0 && v / s - 0.5 < m
    ensures v - s / 2.0 < m * s
  {
    MulStrict(v / s - 0.5, m, s);
    HalfStep(v, s);
  }

  /** `n` steps of size `s`. */
  function Times(n: int, s: real): real {
    n as real * s
  }

  /** `r` is a whole number of steps of size `s`. */
  ghost predicate IsWholeMultiple(r: real, s: real) {
    exists n: int :: Times(n, s) == r
  }

  /** A whole number of steps within half a step of `v / s` steps lies
      within half a step of `v`. */
  lemma StepMultipleBounds(v: real, s: real, n: int)
    requires s > 0.0 && v / s - 0.5 < n as real <= v / s + 0.5
    ensures v - s / 2.0 < Times(n, s) <= v + s / 2.0
  {
    AboveHalfStepBelow(v, s, n as real);
    BelowHalfStepAbove(v, s, n as real);
  }

  /** `roundToStep`: a non-finite value or step, or a step that is not
      positive, gives back the value unchanged; otherwise the value moves to
      the nearest whole multiple of the step, halves upward. */
  function RoundToStep(value: Number, step: Number): (r: Number)
    ensures !IsFinite(value) || !IsFinite(step) || step.value <= 0.0 ==> r == value
    ensures IsFinite(value) && IsFinite(step) && step.value > 0.0 ==>
      && r.Finite?
      && IsWholeMultiple(r.value, step.value)
      && value.value - step.value / 2.0 < r.value <= value.value + step.value / 2.0
  {
    if !IsFinite(value) || !IsFinite(step) || step.value <= 0.0 then value
    else
      var n := RoundHalfUp(value.value / step.value);
      StepMultipleBounds(value.value, step.value, n);
      Finite(Times(n, step.value))
  }

  /** Dividing a whole number of steps by the step gives the count back. */
  lemma TimesDiv(n: int, s: real)
    requires s > 0.0
    ensures Times(n, s) / s == n as real
  {
    assert (n as real * s) / s == n as real;
  }

  /** A whole number rounds to itself. */
  lemma RoundWhole(n: int)
    ensures RoundHalfUp(n as real) == n
  {
    assert (n as real + 0.5).Floor == n;
  }

  /** Rounding to the step a second time changes nothing. */
  lemma RoundToStepIdempotent(value: Number, step: Number)
    ensures RoundToStep(RoundToStep(value, step), step) == RoundToStep(value, step)
  {
    if IsFinite(value) && IsFinite(step) && step.value > 0.0 {
      var n := RoundHalfUp(value.value / step.value);
      TimesDiv(n, step.value);
      RoundWhole(n);
    }
  }

  /** Every `,` becomes `.`; nothing else changes. */
  function ReplaceCommas(text: string): (r: string)
    ensures |r| == |text|
    ensures forall i :: 0 <= i < |text| ==> r[i] == if text[i] == ',' then '.' else text[i]
  {
    if text == [] then []
    else [if text[0] == ',' then '.' else text[0]] + ReplaceCommas(text[1..])
  }

  /** `sanitizeNumericInput`: decimal commas become points and surrounding
      whitespace goes. */
  function SanitizeNumericInput(text: string): (r: string)
    ensures IsTrimOf(r, ReplaceCommas(text))
    ensures ',' !in r
  {
    var replaced := ReplaceCommas(text);
    assert ',' !in replaced by {
      assert forall k :: 0 <= k < |replaced| ==> replaced[k] != ',';
    }
    TrimKeepsAbsence(replaced, ',');
    Trim(replaced)
  }

  /** Trimming cannot introduce a character. */
  lemma TrimKeepsAbsence(s: string, c: char)
    requires c !in s
    ensures c !in Trim(s)
  {
    var r := Trim(s);
    var i, j :| 0 <= i <= j <= |s| && r == s[i..j];
    assert forall k :: 0 <= k < |r| ==> r[k] == s[i + k];
  }

  /** A string without commas is left alone by the comma replacement. */
  lemma {:induction false} ReplaceCommasNone(text: string)
    requires ',' !in text
    ensures ReplaceCommas(text) == text
  {
    if text != [] {
      assert text[0] in text;
      assert forall c :: c in text[1..] ==> c in text;
      ReplaceCommasNone(text[1..]);
      assert text == [text[0]] + text[1..];
    }
  }

  /** Cleaning twice is cleaning once. */
  lemma SanitizeIdempotent(text: string)
    ensures SanitizeNumericInput(SanitizeNumericInput(text)) == SanitizeNumericInput(text)
  {
    var r := SanitizeNumericInput(text);
    ReplaceCommasNone(r);
    TrimUnique(Trim(ReplaceCommas(text)), ReplaceCommas(text));
    TrimIdempotent(ReplaceCommas(text));
  }

  /** The text `parseNumericInput` hands to `Number()`, or nothing when it
      returns `null` before parsing: empty text and a lone `.`, `-` or `+`
      are rejected, and one trailing `.` is dropped. The source's later
      guard against an empty remainder can never fire: the remainder is
      never empty. */
  function ParseableText(text: string): (r: Option<string>)
    ensures var s := SanitizeNumericInput(text);
      r.None? <==> (s == "" || s == "." || s == "-" || s == "+")
    ensures var s := SanitizeNumericInput(text);
      r.Some? ==> r.value != "" && (s == r.value + "." || (s == r.value && s[|s| - 1] != '.'))
  {
    var s := SanitizeNumericInput(text);
    if s == "" then None
    else if s == "." || s == "-" || s == "+" then None
    else if s[|s| - 1] == '.' then
      assert s == s[..|s| - 1] + ".";
      Some(s[..|s| - 1])
    else Some(s)
  }

  /** `parseNumericInput`, with JavaScript's `Number()` conversion as the
      parameter `toNumber`: a finite result of the conversion, or `null`. */
  function ParseNumericInput(text: string, toNumber: string -> Number): (r: Option<real>)
    ensures ParseableText(text).None? ==> r.None?
    ensures ParseableText(text).Some? ==>
      (r.Some? <==> IsFinite(toNumber(ParseableText(text).value)))
    ensures r.Some? ==> toNumber(ParseableText(text).value) == Finite(r.value)
  {
    match ParseableText(text)
    case None => None
    case Some(literal) =>
      match toNumber(literal)
      case Finite(v) => Some(v)
      case _ => None
  }

  /** Parsing cleaned text gives the same as parsing the raw text. */
  lemma ParseAfterSanitize(text: string, toNumber: string -> Number)
    ensures ParseNumericInput(SanitizeNumericInput(text), toNumber) == ParseNumericInput(text, toNumber)
  {
    SanitizeIdempotent(text);
  }

  /** Appending a point to cleaned text leaves it clean. */
  lemma SanitizeWithPoint(t: string)
    requires SanitizeNumericInput(t) == t && t != ""
    ensures SanitizeNumericInput(t + ".") == t + "."
  {
    var u := t + ".";
    assert ',' !in u by {
      assert forall k :: 0 <= k < |t| ==> u[k] == t[k];
    }
    ReplaceCommasNone(u);
    assert IsTrimmed(t) by {
      var c := ReplaceCommas(t);
      var i, j :| 0 <= i <= j <= |c| && t == c[i..j] && IsTrimmed(t);
    }
    assert u[0] == t[0];
    assert IsTrimmed(u);
    assert u[..0] == [] && u[|u|..] == [] && u[0..|u|] == u;
    TrimUnique(u, u);
  }

  /** A partly typed decimal such as `12.` parses as if the point were not
      there yet. */
  lemma TrailingPointIgnored(t: string, toNumber: string -> Number)
    requires SanitizeNumericInput(t) == t
    requires t != "" && t != "-" && t != "+" && t[|t| - 1] != '.'
    ensures ParseNumericInput(t + ".", toNumber) == ParseNumericInput(t, toNumber)
  {
    SanitizeWithPoint(t);
    var u := t + ".";
    assert u[..|u| - 1] == t;
    assert u != "." && u != "-" && u != "+";
  }

  /** The position of the first `c` in `s`, or -1 (`String.prototype.indexOf`). */
  function IndexOf(s: string, c: char): (i: int)
    ensures -1 <= i < |s|
    ensures i == -1 <==> c !in s
    ensures 0 <= i ==> s[i] == c && c !in s[..i]
  {
    if s == [] then -1
    else if s[0] == c then 0
    else
      var rest := IndexOf(s[1..], c);
      assert s == [s[0]] + s[1..];
      if rest == -1 then -1
      else
        assert s[..rest + 1] == [s[0]] + s[1..][..rest];
        rest + 1
  }

  /** `countDecimals` on the step's decimal string: the number of characters
      after the first `.`, or 0 when there is none. */
  function CountDecimals(stepText: string): (n: nat)
    ensures '.' !in stepText ==> n == 0
    ensures '.' in stepText ==>
      exists i :: 0 <= i < |stepText| && stepText[i] == '.' && '.' !in stepText[..i] && n == |stepText| - i - 1
  {
    var i := IndexOf(stepText, '.');
    if i >= 0 then |stepText| - i - 1 else 0
  }

  /** For a decimal string the count is the length of the fraction. */
  lemma CountDecimalsOfDecimal(whole: string, fraction: string)
    requires '.' !in whole
    ensures CountDecimals(whole + "." + fraction) == |fraction|
  {
    var s := whole + "." + fraction;
    var i := IndexOf(s, '.');
    assert s[|whole|] == '.';
  }

  /** The form's steps: 0.25 for grind, 0.1 for weights, 1 for time. */
  lemma FormStepDecimals()
    ensures CountDecimals("0.25") == 2
    ensures CountDecimals("0.1") == 1
    ensures CountDecimals("1") == 0
  {
    CountDecimalsOfDecimal("0", "25");
    CountDecimalsOfDecimal("0", "1");
    assert "1"[0] != '.';
  }

  /** Every character is `0`. */
  predicate AllZeros(t: string) {
    forall k :: 0 <= k < |t| ==> t[k] == '0'
  }

  /** A non-empty run of `0` characters. */
  predicate IsZeroRun(t: string) {
    |t| > 0 && AllZeros(t)
  }

  /** The pattern `/\.?0+$/` matches `s` from position `i` to its end. */
  predicate MatchesAt(s: string, i: nat)
    requires i <= |s|
  {
    IsZeroRun(s[i..]) || (i < |s| && s[i] == '.' && IsZeroRun(s[i + 1..]))
  }

  /** The length of the run of `0` characters that ends `s`. */
  function TrailingZeros(s: string): (n: nat)
    ensures n <= |s|
    ensures forall k :: |s| - n <= k < |s| ==> s[k] == '0'
    ensures n < |s| ==> s[|s| - n - 1] != '0'
  {
    if s != [] && s[|s| - 1] == '0' then 1 + TrailingZeros(s[..|s| - 1]) else 0
  }

  /** Where the leftmost match of `/\.?0+$/` starts, or `|s|` when it does
      not match at all. */
  function ZeroRunMatchStart(s: string): (i: nat)
    ensures i <= |s|
    ensures i < |s| ==> MatchesAt(s, i)
    ensures forall k :: 0 <= k < i ==> !MatchesAt(s, k)
    ensures i == |s| <==> (s == [] || s[|s| - 1] != '0')
  {
    var z := |s| - TrailingZeros(s);
    if z == |s| then
      forall k | 0 <= k < |s|
        ensures !MatchesAt(s, k)
      {
        assert s[k..][|s| - k - 1] == s[|s| - 1];
        if k + 1 < |s| {
          assert s[k + 1..][|s| - k - 2] == s[|s| - 1];
        }
      }
      |s|
    else
      var i := if z > 0 && s[z - 1] == '.' then z - 1 else z;
      assert IsZeroRun(s[z..]);
      forall k | 0 <= k < i
        ensures !MatchesAt(s, k)
      {
        assert s[k..][z - 1 - k] == s[z - 1];
        if k + 1 <= z - 1 {
          assert s[k + 1..][z - 2 - k] == s[z - 1];
        }
        assert s[k..][0] == s[k];
      }
      i
  }

  /** `stripTrailingZeros`: removes the leftmost match of `/\.?0+$/`, and
      gives `"0"` instead of an empty result. */
  function StripTrailingZeros(value: string): (r: string)
    ensures r != []
    ensures ZeroRunMatchStart(value) == 0 ==> r == "0"
    ensures ZeroRunMatchStart(value) > 0 ==> r == value[..ZeroRunMatchStart(value)]
  {
    var stripped := value[..ZeroRunMatchStart(value)];
    if |stripped| > 0 then stripped else "0"
  }

  /** Trailing zeros of a fraction go, with the point when nothing is left. */
  lemma StripExamples()
    ensures StripTrailingZeros("1.50") == "1.5"
    ensures StripTrailingZeros("2.00") == "2"
    ensures StripTrailingZeros("0.0") == "0"
    ensures StripTrailingZeros("12.5") == "12.5"
  {
    assert "1.50"[3..] == "0" && MatchesAt("1.50", 3);
    assert ZeroRunMatchStart("1.50") == 3;
    assert "1.50"[..3] == "1.5";
    assert "2.00"[2..] == "00" && MatchesAt("2.00", 1);
    assert ZeroRunMatchStart("2.00") == 1;
    assert "2.00"[..1] == "2";
    assert "0.0"[2..] == "0" && MatchesAt("0.0", 1);
    assert ZeroRunMatchStart("0.0") == 1;
    assert "0.0"[..1] == "0";
    assert ZeroRunMatchStart("12.5") == 4;
    assert "12.5"[..4] == "12.5";
  }

  /** As written, the pattern also eats zeros of a whole number: `"100"`
      becomes `"1"`. */
  lemma StripDropsIntegerZeros()
    ensures StripTrailingZeros("100") == "1"
  {
    assert "100"[1..] == "00" && MatchesAt("100", 1);
    assert !MatchesAt("100", 0) by {
      assert "100"[0..][0] == '1';
    }
    assert ZeroRunMatchStart("100") == 1;
    assert "100"[..1] == "1";
  }

  /** Trailing-zero stripping restricted to strings with a decimal point:
      only zeros of the fraction, and then the point, are removed. */
  function StripFractionZeros(value: string): (r: string)
    ensures r != []
    ensures '.' !in value && value != [] ==> r == value
  {
    if '.' in value then StripTrailingZeros(value)
    else if value == [] then "0"
    else value
  }

  /** The pattern cannot match before the first point: a match is zeros
      after at most one leading point. */
  lemma NoMatchBeforePoint(s: string, w: nat)
    requires w < |s| && s[w] == '.' && forall k :: 0 <= k < w ==> s[k] != '.'
    ensures ZeroRunMatchStart(s) >= w
  {
    forall k | 0 <= k < w
      ensures !MatchesAt(s, k)
    {
      assert s[k..][w - k] == '.';
      if k + 1 <= w {
        assert s[k + 1..][w - k - 1] == '.';
      }
    }
  }

  /** The whole part of a decimal string survives, followed by the fraction
      with only trailing zeros, and then a bare point, removed. */
  lemma StripFractionZerosKeepsWhole(whole: string, fraction: string)
    requires whole != [] && '.' !in whole && '.' !in fraction
    ensures var r := StripFractionZeros(whole + "." + fraction);
      && |whole| <= |r| && r[..|whole|] == whole
      && (r == whole ==> IsZeroRun(fraction))
      && (r != whole ==>
            && |r| > |whole|
            && r[|whole|] == '.'
            && r[|whole| + 1..] == fraction[..|r| - |whole| - 1]
            && AllZeros(fraction[|r| - |whole| - 1..])
            && !IsZeroRun(fraction)
            && (|r| == |whole| + 1 ==> fraction == [])
            && (|r| > |whole| + 1 ==> r[|r| - 1] != '0'))
  {
    var s := whole + "." + fraction;
    var w := |whole|;
    assert s[w] == '.';
    assert '.' in s;
    assert forall k :: 0 <= k < w ==> s[k] == whole[k];
    NoMatchBeforePoint(s, w);
    var i := ZeroRunMatchStart(s);
    assert s[..w] == whole;
    assert s[w + 1..] == fraction;
    if i == w {
      assert MatchesAt(s, w);
      assert s[w..][0] == '.';
    } else {
      StripAfterPoint(s, w, i, fraction);
      assert StripFractionZeros(s) == s[..i];
    }
  }

  /** When the match starts after the point, what is kept is the whole part,
      the point and a prefix of the fraction followed only by zeros. */
  lemma StripAfterPoint(s: string, w: nat, i: nat, fraction: string)
    requires w < i == ZeroRunMatchStart(s) && s[w] == '.' && s[w + 1..] == fraction
    requires '.' !in fraction
    ensures s[..i][w + 1..] == fraction[..i - w - 1]
    ensures AllZeros(fraction[i - w - 1..])
    ensures !IsZeroRun(fraction)
    ensures i == w + 1 ==> fraction == []
    ensures i > w + 1 ==> s[..i][i - 1] != '0'
    ensures s[..i][..w] == s[..w] && s[..i][w] == '.'
  {
    assert s[..i][w + 1..] == fraction[..i - w - 1];
    if i < |s| {
      assert s[i..] == fraction[i - w - 1..];
      assert s[i] != '.' by {
        assert s[i] == s[w + 1..][i - w - 1];
      }
      assert IsZeroRun(s[i..]);
    } else {
      assert fraction[i - w - 1..] == [];
    }
  }
}

=== FILE: repository.dfy ===
/** The record repository: two collections, each kept whole under one storage
    key, read in full, changed in memory and written back in full. Every
    operation is a function from the store to its result and the store after
    it; the generated id and the current time are parameters. */
module Repository {
  import opened Wrappers
  import opened Seqs
  import opened StableSort
  import opened Js
  import opened Types
  import opened BlobStore

  /** The two storage keys and whether the device currently accepts writes. */
  datatype Store = Store(
    beanTypes: Slot<seq<BeanType>>,
    extractions: Slot<seq<Extraction>>,
    writable: bool)

  /** What an operation can fail with instead of returning. */
  datatype Failure = Storage(cause: StorageError) | Validation(message: string)

  const BeanNameRequired: string := "Bean name is required."
  const BeanTypeRequired: string := "Bean type is required."
  const InvalidExtractionValues: string := "Invalid extraction values."

  /** The message of the `Error` an operation throws for the failure. */
  function ErrorMessage(f: Failure): string {
    match f
    case Storage(cause) => Message(cause)
    case Validation(message) => message
  }

  /** The failures the repository and the storage layer can raise. */
  predicate IsRaised(f: Failure) {
    f.Storage? || f.message in [BeanNameRequired, BeanTypeRequired, InvalidExtractionValues]
  }

  /** Every raised failure has its own message, so a caller that sees only
      the message still knows which failure occurred. */
  lemma ErrorMessageDistinguishes(a: Failure, b: Failure)
    requires IsRaised(a) && IsRaised(b)
    requires ErrorMessage(a) == ErrorMessage(b)
    ensures a == b
  {
    assert Message(ReadFailed)[12] != Message(WriteFailed)[12];
    assert Message(ReadFailed)[0] != BeanNameRequired[0] && Message(WriteFailed)[0] != BeanNameRequired[0];
    assert Message(ReadFailed)[0] != InvalidExtractionValues[0] && Message(WriteFailed)[0] != InvalidExtractionValues[0];
    assert BeanNameRequired[0] != InvalidExtractionValues[0] && BeanTypeRequired[0] != InvalidExtractionValues[0];
    assert BeanTypeRequired[5] != BeanNameRequired[5];
  }

  /** `{ ok: true }` or `{ ok: false, reason: "in_use", count }`. */
  datatype DeleteBeanTypeResult = Deleted | InUse(count: nat)

  /** The result of an operation and the store it leaves behind. */
  datatype Step<T> = Step(result: Result<T, Failure>, store: Store)

  /** Sort key of the bean list: oldest first. */
  function OldestFirst(b: BeanType): int {
    b.createdAt
  }

  /** Sort key of the extraction list: newest first. */
  function NewestFirst(e: Extraction): int {
    -e.createdAt
  }

  function BeanIdIsNot(id: string): BeanType -> bool {
    (b: BeanType) => b.id != id
  }

  function ExtractionIdIsNot(id: string): Extraction -> bool {
    (e: Extraction) => e.id != id
  }

  function RefersTo(beanTypeId: string): Extraction -> bool {
    (e: Extraction) => e.beanTypeId == beanTypeId
  }

  /** The bean types a successful read of the store sees, in stored order. */
  ghost function StoredBeans(st: Store): seq<BeanType> {
    if st.beanTypes.Json? then st.beanTypes.value else []
  }

  /** The extractions a successful read of the store sees, in stored order. */
  ghost function StoredExtractions(st: Store): seq<Extraction> {
    if st.extractions.Json? then st.extractions.value else []
  }

  /** `getBeanTypes`: the stored bean types, oldest first, ties in stored order. */
  function GetBeanTypes(st: Store): (r: Result<seq<BeanType>, Failure>)
    ensures r.Failure? <==> st.beanTypes.Unreadable?
    ensures r.Failure? ==> r.error == Storage(ReadFailed)
    ensures r.Success? ==> IsStableSortOf(r.value, StoredBeans(st), OldestFirst)
    ensures r.Success? ==> multiset(r.value) == multiset(StoredBeans(st))
    ensures r.Success? ==> forall i, j :: 0 <= i < j < |r.value| ==> r.value[i].createdAt <= r.value[j].createdAt
  {
    match GetStoredJSON(st.beanTypes, [])
    case Failure(e) => Failure(Storage(e))
    case Success(beans) => Success(Sort(beans, OldestFirst))
  }

  /** `addBeanType`: validates the trimmed name before touching storage, then
      appends the new bean to the sorted list and writes the list back. */
  function AddBeanType(st: Store, name: string, id: string, now: int): (r: Step<BeanType>)
    ensures Trim(name) == [] ==> r == Step(Failure(Validation(BeanNameRequired)), st)
    ensures Trim(name) != [] && st.beanTypes.Unreadable? ==> r == Step(Failure(Storage(ReadFailed)), st)
    ensures Trim(name) != [] && !st.beanTypes.Unreadable? && !st.writable ==> r == Step(Failure(Storage(WriteFailed)), st)
    ensures r.result.Success? <==> Trim(name) != [] && !st.beanTypes.Unreadable? && st.writable
    ensures r.result.Success? ==>
      && r.result.value == BeanType(id, Trim(name), now)
      && r.store.extractions == st.extractions
      && r.store.writable == st.writable
      && r.store.beanTypes.Json?
      && var written := r.store.beanTypes.value;
         && |written| == |StoredBeans(st)| + 1
         && written[|written| - 1] == r.result.value
         && IsStableSortOf(written[..|written| - 1], StoredBeans(st), OldestFirst)
  {
    var trimmed := Trim(name);
    if trimmed == [] then Step(Failure(Validation(BeanNameRequired)), st)
    else
      match GetBeanTypes(st)
      case Failure(e) => Step(Failure(e), st)
      case Success(beans) =>
        var newBean := BeanType(id, trimmed, now);
        var next := beans + [newBean];
        assert next[..|next| - 1] == beans;
        var (written, slot) := SetStoredJSON(st.beanTypes, next, st.writable);
        match written
        case Fail(e) => Step(Failure(Storage(e)), st)
        case Pass => Step(Success(newBean), st.(beanTypes := slot))
  }

  /** `countExtractionsForBeanType`: how many stored extractions refer to the
      bean type. */
  function CountExtractionsForBeanType(st: Store, beanTypeId: string): (r: Result<nat, Failure>)
    ensures r.Failure? <==> st.extractions.Unreadable?
    ensures r.Failure? ==> r.error == Storage(ReadFailed)
    ensures r.Success? ==> r.value == CountWhere(StoredExtractions(st), RefersTo(beanTypeId))
    ensures r.Success? ==> (r.value > 0 <==> exists i :: 0 <= i < |StoredExtractions(st)| && StoredExtractions(st)[i].beanTypeId == beanTypeId)
  {
    match GetExtractions(st)
    case Failure(e) => Failure(e)
    case Success(extractions) =>
      CountPermutation(extractions, StoredExtractions(st), RefersTo(beanTypeId));
      CountPositiveIffExists(StoredExtractions(st), RefersTo(beanTypeId));
      Success(CountWhere(extractions, RefersTo(beanTypeId)))
  }

  /** `deleteBeanType`: refuses, without writing, while any extraction refers
      to the bean type; otherwise writes the sorted list without it. */
  function DeleteBeanType(st: Store, id: string): (r: Step<DeleteBeanTypeResult>)
    ensures r.result.Failure? ==> r.store == st
    ensures st.extractions.Unreadable? ==> r.result == Failure(Storage(ReadFailed))
    ensures r.result.Success? && r.result.value.InUse? ==>
      && r.store == st
      && r.result.value.count == CountWhere(StoredExtractions(st), RefersTo(id))
      && r.result.value.count > 0
    ensures !st.extractions.Unreadable? ==>
      (r.result.Success? && r.result.value.InUse? <==>
        exists i :: 0 <= i < |StoredExtractions(st)| && StoredExtractions(st)[i].beanTypeId == id)
    ensures r.result == Success(Deleted) ==>
      && (forall i :: 0 <= i < |StoredExtractions(st)| ==> StoredExtractions(st)[i].beanTypeId != id)
      && r.store.extractions == st.extractions
      && r.store.writable == st.writable
      && r.store.beanTypes.Json?
      && (forall b :: b in r.store.beanTypes.value ==> b.id != id)
      && IsStableSortOf(r.store.beanTypes.value, Filter(StoredBeans(st), BeanIdIsNot(id)), OldestFirst)
    ensures r.result.Success? <==>
      && !st.extractions.Unreadable?
      && (CountWhere(StoredExtractions(st), RefersTo(id)) > 0 || (!st.beanTypes.Unreadable? && st.writable))
    ensures (&& !st.extractions.Unreadable?
             && CountWhere(StoredExtractions(st), RefersTo(id)) == 0
             && st.beanTypes.Unreadable?) ==> r.result == Failure(Storage(ReadFailed))
    ensures (&& !st.extractions.Unreadable?
             && CountWhere(StoredExtractions(st), RefersTo(id)) == 0
             && !st.beanTypes.Unreadable? && !st.writable) ==> r.result == Failure(Storage(WriteFailed))
  {
    match CountExtractionsForBeanType(st, id)
    case Failure(e) => Step(Failure(e), st)
    case Success(count) =>
      if count > 0 then Step(Success(InUse(count)), st)
      else
        match GetBeanTypes(st)
        case Failure(e) => Step(Failure(e), st)
        case Success(beans) =>
          var next := Filter(beans, BeanIdIsNot(id));
          FilterAfterSort(StoredBeans(st), OldestFirst, BeanIdIsNot(id));
          var (written, slot) := SetStoredJSON(st.beanTypes, next, st.writable);
          match written
          case Fail(e) => Step(Failure(Storage(e)), st)
          case Pass => Step(Success(Deleted), st.(beanTypes := slot))
  }

  /** `getExtractions`: the stored extractions, newest first, ties in stored
      order. */
  function GetExtractions(st: Store): (r: Result<seq<Extraction>, Failure>)
    ensures r.Failure? <==> st.extractions.Unreadable?
    ensures r.Failure? ==> r.error == Storage(ReadFailed)
    ensures r.Success? ==> IsStableSortOf(r.value, StoredExtractions(st), NewestFirst)
    ensures r.Success? ==> multiset(r.value) == multiset(StoredExtractions(st))
    ensures r.Success? ==> forall i, j :: 0 <= i < j < |r.value| ==> r.value[i].createdAt >= r.value[j].createdAt
  {
    match GetStoredJSON(st.extractions, [])
    case Failure(e) => Failure(Storage(e))
    case Success(extractions) => Success(Sort(extractions, NewestFirst))
  }

  /** The position of the first extraction with the given id, or `|es|`. */
  function FirstWithId(es: seq<Extraction>, id: string): (i: nat)
    ensures i <= |es|
    ensures forall j :: 0 <= j < i ==> es[j].id != id
    ensures i < |es| ==> es[i].id == id
  {
    if es == [] then 0
    else if es[0].id == id then 0
    else 1 + FirstWithId(es[1..], id)
  }

  /** `getExtractionById`: the first extraction with the id in newest-first
      order, or nothing; a missing id is not an error. */
  function GetExtractionById(st: Store, id: string): (r: Result<Option<Extraction>, Failure>)
    ensures r.Failure? <==> st.extractions.Unreadable?
    ensures r.Failure? ==> r.error == Storage(ReadFailed)
    ensures r.Success? ==> (r.value.None? <==> forall e :: e in StoredExtractions(st) ==> e.id != id)
    ensures r.Success? && r.value.Some? ==>
      && r.value.value in StoredExtractions(st)
      && r.value.value.id == id
      && (forall e :: e in StoredExtractions(st) && e.id == id ==> e.createdAt <= r.value.value.createdAt)
    ensures r.Success? && r.value.Some? ==>
      var listed := GetExtractions(st).value;
      exists i :: 0 <= i < |listed| && listed[i] == r.value.value && forall j :: 0 <= j < i ==> listed[j].id != id
  {
    match GetExtractions(st)
    case Failure(e) => Failure(e)
    case Success(listed) =>
      var i := FirstWithId(listed, id);
      SameElements(listed, StoredExtractions(st));
      if i < |listed| then
        FirstWithIdIsNewest(listed, id);
        Success(Some(listed[i]))
      else Success(None)
  }

  /** In a newest-first list the first record with an id is the newest one
      with it. */
  lemma FirstWithIdIsNewest(listed: seq<Extraction>, id: string)
    requires forall i, j :: 0 <= i < j < |listed| ==> listed[i].createdAt >= listed[j].createdAt
    requires FirstWithId(listed, id) < |listed|
    ensures forall e :: e in listed && e.id == id ==> e.createdAt <= listed[FirstWithId(listed, id)].createdAt
  {
    var i := FirstWithId(listed, id);
    forall e | e in listed && e.id == id
      ensures e.createdAt <= listed[i].createdAt
    {
      var k :| 0 <= k < |listed| && listed[k] == e;
      assert i <= k;
    }
  }

  /** `ensureValidExtractionInput`: the bean type id must be non-empty and
      each of the four numeric fields, checked in order, a finite number. */
  function EnsureValidExtractionInput(input: NewExtractionInput): (r: Outcome<Failure>)
    ensures r == Fail(Validation(BeanTypeRequired)) <==> input.beanTypeId == ""
    ensures r == Fail(Validation(InvalidExtractionValues)) <==>
      input.beanTypeId != "" &&
      !(IsFiniteNumber(input.grindSetting) && IsFiniteNumber(input.weightIn) &&
        IsFiniteNumber(input.weightOut) && IsFiniteNumber(input.timeSec))
    ensures r.Pass? <==>
      input.beanTypeId != "" && IsFiniteNumber(input.grindSetting) && IsFiniteNumber(input.weightIn) &&
      IsFiniteNumber(input.weightOut) && IsFiniteNumber(input.timeSec)
  {
    var fields := [input.grindSetting, input.weightIn, input.weightOut, input.timeSec];
    if input.beanTypeId == "" then Fail(Validation(BeanTypeRequired))
    else if FirstNonFinite(fields) < |fields| then Fail(Validation(InvalidExtractionValues))
    else
      assert fields[0] == input.grindSetting && fields[1] == input.weightIn;
      assert fields[2] == input.weightOut && fields[3] == input.timeSec;
      Pass
  }

  /** The position of the first field that is not a finite number, or `|fields|`. */
  function FirstNonFinite(fields: seq<NumericField>): (i: nat)
    ensures i <= |fields|
    ensures forall j :: 0 <= j < i ==> IsFiniteNumber(fields[j])
    ensures i < |fields| ==> !IsFiniteNumber(fields[i])
  {
    if fields == [] then 0
    else if !IsFiniteNumber(fields[0]) then 0
    else 1 + FirstNonFinite(fields[1..])
  }

  /** The record `addExtraction` creates: the input's fields copied unchanged
      next to the new id and timestamp. */
  function NewExtraction(input: NewExtractionInput, id: string, now: int): Extraction {
    Extraction(id, now, input.beanTypeId, input.grindSetting, input.weightIn,
               input.weightOut, input.timeSec, input.notes)
  }

  /** `addExtraction`: validates before touching storage, then puts the new
      record in front of the sorted list and writes the list back. */
  function AddExtraction(st: Store, input: NewExtractionInput, id: string, now: int): (r: Step<Extraction>)
    ensures EnsureValidExtractionInput(input).Fail? ==>
      r == Step(Failure(EnsureValidExtractionInput(input).error), st)
    ensures EnsureValidExtractionInput(input).Pass? && st.extractions.Unreadable? ==>
      r == Step(Failure(Storage(ReadFailed)), st)
    ensures EnsureValidExtractionInput(input).Pass? && !st.extractions.Unreadable? && !st.writable ==>
      r == Step(Failure(Storage(WriteFailed)), st)
    ensures r.result.Success? <==>
      EnsureValidExtractionInput(input).Pass? && !st.extractions.Unreadable? && st.writable
    ensures r.result.Success? ==>
      && var e := r.result.value;
         && e.id == id && e.createdAt == now
         && e.beanTypeId == input.beanTypeId && e.beanTypeId != ""
         && e.grindSetting == input.grindSetting && e.weightIn == input.weightIn
         && e.weightOut == input.weightOut && e.timeSec == input.timeSec
         && e.notes == input.notes
         && HasFiniteNumbers(e)
    ensures r.result.Success? ==>
      && r.store.beanTypes == st.beanTypes
      && r.store.writable == st.writable
      && r.store.extractions.Json?
      && var written := r.store.extractions.value;
         && |written| == |StoredExtractions(st)| + 1
         && written[0] == r.result.value
         && IsStableSortOf(written[1..], StoredExtractions(st), NewestFirst)
  {
    match EnsureValidExtractionInput(input)
    case Fail(e) => Step(Failure(e), st)
    case Pass =>
      var extraction := NewExtraction(input, id, now);
      match GetExtractions(st)
      case Failure(e) => Step(Failure(e), st)
      case Success(extractions) =>
        var next := [extraction] + extractions;
        assert next[1..] == extractions;
        var (written, slot) := SetStoredJSON(st.extractions, next, st.writable);
        match written
        case Fail(e) => Step(Failure(Storage(e)), st)
        case Pass => Step(Success(extraction), st.(extractions := slot))
  }

  /** `deleteExtraction`: writes the sorted list without any record of that
      id; a missing id is not an error. */
  function DeleteExtraction(st: Store, id: string): (r: Step<()>)
    ensures r.result.Failure? ==> r.store == st
    ensures st.extractions.Unreadable? ==> r.result == Failure(Storage(ReadFailed))
    ensures !st.extractions.Unreadable? && !st.writable ==> r.result == Failure(Storage(WriteFailed))
    ensures r.result.Success? <==> !st.extractions.Unreadable? && st.writable
    ensures r.result.Success? ==>
      && r.store.beanTypes == st.beanTypes
      && r.store.writable == st.writable
      && r.store.extractions.Json?
      && (forall e :: e in r.store.extractions.value ==> e.id != id)
      && IsStableSortOf(r.store.extractions.value, Filter(StoredExtractions(st), ExtractionIdIsNot(id)), NewestFirst)
  {
    match GetExtractions(st)
    case Failure(e) => Step(Failure(e), st)
    case Success(extractions) =>
      var next := Filter(extractions, ExtractionIdIsNot(id));
      FilterAfterSort(StoredExtractions(st), NewestFirst, ExtractionIdIsNot(id));
      var (written, slot) := SetStoredJSON(st.extractions, next, st.writable);
      match written
      case Fail(e) => Step(Failure(Storage(e)), st)
      case Pass => Step(Success(()), st.(extractions := slot))
  }
}

=== FILE: repository_properties.dfy ===
/** Properties that relate several repository operations. */
module RepositoryProperties {
  import opened Wrappers
  import opened Seqs
  import opened StableSort
  import opened Js
  import opened Types
  import opened BlobStore
  import opened Repository

  /** Some stored bean type has the id. */
  ghost predicate HasBean(beans: seq<BeanType>, id: string) {
    exists j :: 0 <= j < |beans| && beans[j].id == id
  }

  /** Every stored extraction refers to a stored bean type. */
  ghost predicate ReferencesResolved(st: Store) {
    forall i :: 0 <= i < |StoredExtractions(st)| ==> HasBean(StoredBeans(st), StoredExtractions(st)[i].beanTypeId)
  }

  /** Every stored extraction has finite numeric fields. */
  ghost predicate NumbersFinite(st: Store) {
    forall i :: 0 <= i < |StoredExtractions(st)| ==> HasFiniteNumbers(StoredExtractions(st)[i])
  }

  /** A store whose lists are already kept in display order. */
  ghost predicate BeansInListOrder(st: Store) {
    Sorted(StoredBeans(st), OldestFirst)
  }

  ghost predicate ExtractionsInListOrder(st: Store) {
    Sorted(StoredExtractions(st), NewestFirst)
  }

  lemma HasBeanPermutation(a: seq<BeanType>, b: seq<BeanType>, id: string)
    requires multiset(a) <= multiset(b)
    requires HasBean(a, id)
    ensures HasBean(b, id)
  {
    var j :| 0 <= j < |a| && a[j].id == id;
    assert a[j] in multiset(a);
    assert a[j] in multiset(b);
    var k :| 0 <= k < |b| && b[k] == a[j];
  }

  /** Reading a store whose beans are already oldest first lists them as stored. */
  lemma ListingOrderedBeans(st: Store)
    requires BeansInListOrder(st) && !st.beanTypes.Unreadable?
    ensures GetBeanTypes(st) == Success(StoredBeans(st))
  {
    SortSortedIsIdentity(StoredBeans(st), OldestFirst);
  }

  /** Reading a store whose extractions are already newest first lists them as stored. */
  lemma ListingOrderedExtractions(st: Store)
    requires ExtractionsInListOrder(st) && !st.extractions.Unreadable?
    ensures GetExtractions(st) == Success(StoredExtractions(st))
  {
    SortSortedIsIdentity(StoredExtractions(st), NewestFirst);
  }

  /** A bean added no earlier than every stored bean is listed last, after
      the earlier beans in list order, and the store is left in list order. */
  lemma AddBeanTypeListsNewBeanLast(st: Store, name: string, id: string, now: int)
    requires AddBeanType(st, name, id, now).result.Success?
    requires forall b :: b in StoredBeans(st) ==> b.createdAt <= now
    ensures var r := AddBeanType(st, name, id, now);
      && BeansInListOrder(r.store)
      && GetBeanTypes(r.store) == Success(GetBeanTypes(st).value + [r.result.value])
  {
    var r := AddBeanType(st, name, id, now);
    var written := r.store.beanTypes.value;
    var earlier := written[..|written| - 1];
    StableSortIsPermutation(earlier, StoredBeans(st), OldestFirst);
    StableSortUnique(earlier, GetBeanTypes(st).value, StoredBeans(st), OldestFirst);
    forall i, j | 0 <= i < j < |written|
      ensures OldestFirst(written[i]) <= OldestFirst(written[j])
    {
      assert written[i] == earlier[i];
      if j < |written| - 1 {
        assert written[j] == earlier[j];
      } else {
        assert earlier[i] in multiset(StoredBeans(st));
      }
    }
    assert written == earlier + [r.result.value];
    ListingOrderedBeans(r.store);
  }

  /** An extraction added no earlier than every stored one is listed first,
      before the earlier list, and the store is left in list order. */
  lemma AddExtractionListsNewFirst(st: Store, input: NewExtractionInput, id: string, now: int)
    requires AddExtraction(st, input, id, now).result.Success?
    requires forall e :: e in StoredExtractions(st) ==> e.createdAt <= now
    ensures var r := AddExtraction(st, input, id, now);
      && ExtractionsInListOrder(r.store)
      && GetExtractions(r.store) == Success([r.result.value] + GetExtractions(st).value)
  {
    var r := AddExtraction(st, input, id, now);
    var written := r.store.extractions.value;
    var earlier := written[1..];
    StableSortIsPermutation(earlier, StoredExtractions(st), NewestFirst);
    StableSortUnique(earlier, GetExtractions(st).value, StoredExtractions(st), NewestFirst);
    forall i, j | 0 <= i < j < |written|
      ensures NewestFirst(written[i]) <= NewestFirst(written[j])
    {
      assert written[j] == earlier[j - 1];
      if 0 < i {
        assert written[i] == earlier[i - 1];
      } else {
        assert earlier[j - 1] in multiset(StoredExtractions(st));
      }
    }
    assert written == [r.result.value] + earlier;
    ListingOrderedExtractions(r.store);
  }

  /** Looking up the id of a just-added extraction gives back the input's
      fields with that id and timestamp, as long as the id was not in use. */
  lemma AddThenGetById(st: Store, input: NewExtractionInput, id: string, now: int)
    requires AddExtraction(st, input, id, now).result.Success?
    requires forall e :: e in StoredExtractions(st) ==> e.id != id
    ensures GetExtractionById(AddExtraction(st, input, id, now).store, id) == Success(Some(NewExtraction(input, id, now)))
  {
    var r := AddExtraction(st, input, id, now);
    var written := r.store.extractions.value;
    StableSortIsPermutation(written[1..], StoredExtractions(st), NewestFirst);
    assert written == [written[0]] + written[1..];
    assert written[0] in StoredExtractions(r.store);
    var found := GetExtractionById(r.store, id);
    assert found.value.Some?;
    assert found.value.value in multiset(written);
  }

  /** A refused deletion reports exactly the number of referring extractions,
      and a deletion goes ahead exactly when there are none. */
  lemma DeleteBeanTypeCountsReferences(st: Store, id: string)
    requires !st.extractions.Unreadable?
    ensures var r := DeleteBeanType(st, id);
      && (r.result.Success? && r.result.value.InUse? <==> CountWhere(StoredExtractions(st), RefersTo(id)) > 0)
      && (r.result.Success? && r.result.value.InUse? ==> r.result.value.count == CountWhere(StoredExtractions(st), RefersTo(id)))
      && (r.result == Success(Deleted) ==> CountWhere(StoredExtractions(st), RefersTo(id)) == 0)
  {
    CountPositiveIffExists(StoredExtractions(st), RefersTo(id));
  }

  /** Deleting a bean type removes every copy of the records with that id and
      keeps every other record. */
  lemma DeleteBeanTypeRemovesOnlyThatId(st: Store, id: string, b: BeanType)
    requires !st.extractions.Unreadable? && !st.beanTypes.Unreadable? && st.writable
    requires CountWhere(StoredExtractions(st), RefersTo(id)) == 0
    ensures multiset(DeleteBeanType(st, id).store.beanTypes.value)[b] ==
      if b.id == id then 0 else multiset(StoredBeans(st))[b]
  {
    var after := DeleteBeanType(st, id).store.beanTypes.value;
    StableSortIsPermutation(after, Filter(StoredBeans(st), BeanIdIsNot(id)), OldestFirst);
    FilterMultiset(StoredBeans(st), BeanIdIsNot(id));
  }

  /** Deleting an unknown bean type id keeps every bean; the store only ends
      up in list order. */
  lemma DeleteUnknownBeanTypeKeepsBeans(st: Store, id: string)
    requires !st.extractions.Unreadable? && !st.beanTypes.Unreadable? && st.writable
    requires CountWhere(StoredExtractions(st), RefersTo(id)) == 0
    requires forall b :: b in StoredBeans(st) ==> b.id != id
    ensures DeleteBeanType(st, id).store.beanTypes.value == GetBeanTypes(st).value
    ensures multiset(DeleteBeanType(st, id).store.beanTypes.value) == multiset(StoredBeans(st))
  {
    FilterAllKept(StoredBeans(st), BeanIdIsNot(id));
    StableSortUnique(DeleteBeanType(st, id).store.beanTypes.value, GetBeanTypes(st).value, StoredBeans(st), OldestFirst);
  }

  /** A deletion leaves the beans in list order, so the next listing returns
      them as written. */
  lemma DeleteBeanTypeLeavesListOrder(st: Store, id: string)
    requires !st.extractions.Unreadable? && !st.beanTypes.Unreadable? && st.writable
    requires CountWhere(StoredExtractions(st), RefersTo(id)) == 0
    ensures BeansInListOrder(DeleteBeanType(st, id).store)
    ensures GetBeanTypes(DeleteBeanType(st, id).store) == Success(DeleteBeanType(st, id).store.beanTypes.value)
  {
    ListingOrderedBeans(DeleteBeanType(st, id).store);
  }

  /** Deleting an extraction removes every copy of the records with that id
      and keeps every other record. */
  lemma DeleteExtractionRemovesOnlyThatId(st: Store, id: string, e: Extraction)
    requires DeleteExtraction(st, id).result.Success?
    ensures multiset(DeleteExtraction(st, id).store.extractions.value)[e] ==
      if e.id == id then 0 else multiset(StoredExtractions(st))[e]
  {
    var after := DeleteExtraction(st, id).store.extractions.value;
    StableSortIsPermutation(after, Filter(StoredExtractions(st), ExtractionIdIsNot(id)), NewestFirst);
    FilterMultiset(StoredExtractions(st), ExtractionIdIsNot(id));
  }

  /** Deleting an unknown extraction id only puts the list in newest-first
      order; a store already in that order is left exactly as it was. */
  lemma DeleteUnknownExtraction(st: Store, id: string)
    requires DeleteExtraction(st, id).result.Success?
    requires forall e :: e in StoredExtractions(st) ==> e.id != id
    ensures DeleteExtraction(st, id).store.extractions.value == GetExtractions(st).value
    ensures st.extractions.Json? && ExtractionsInListOrder(st) ==> DeleteExtraction(st, id).store == st
  {
    FilterAllKept(StoredExtractions(st), ExtractionIdIsNot(id));
    StableSortUnique(DeleteExtraction(st, id).store.extractions.value, GetExtractions(st).value,
                     StoredExtractions(st), NewestFirst);
    if st.extractions.Json? && ExtractionsInListOrder(st) {
      ListingOrderedExtractions(st);
    }
  }

  /** A bean whose id differs from the removed one survives the removal. */
  lemma KeptBeanStillPresent(stored: seq<BeanType>, after: seq<BeanType>, id: string, ref: string)
    requires multiset(after) == multiset(Filter(stored, BeanIdIsNot(id)))
    requires ref != id && HasBean(stored, ref)
    ensures HasBean(after, ref)
  {
    FilterMultiset(stored, BeanIdIsNot(id));
    var j :| 0 <= j < |stored| && stored[j].id == ref;
    var b := stored[j];
    assert b in multiset(stored);
    assert b in multiset(after);
    var k :| 0 <= k < |after| && after[k] == b;
  }

  /** A bean type that some extraction refers to is never deleted, so
      deletion never leaves an extraction without its bean type. */
  lemma DeleteBeanTypeKeepsReferencesResolved(st: Store, id: string)
    requires ReferencesResolved(st)
    ensures ReferencesResolved(DeleteBeanType(st, id).store)
  {
    var r := DeleteBeanType(st, id);
    if r.result == Success(Deleted) {
      var after := r.store.beanTypes.value;
      var extractions := StoredExtractions(st);
      assert StoredExtractions(r.store) == extractions;
      assert StoredBeans(r.store) == after;
      StableSortIsPermutation(after, Filter(StoredBeans(st), BeanIdIsNot(id)), OldestFirst);
      forall i | 0 <= i < |extractions|
        ensures HasBean(after, extractions[i].beanTypeId)
      {
        KeptBeanStillPresent(StoredBeans(st), after, id, extractions[i].beanTypeId);
      }
    }
  }

  /** Adding a bean type never breaks a reference. */
  lemma AddBeanTypeKeepsReferencesResolved(st: Store, name: string, id: string, now: int)
    requires ReferencesResolved(st)
    ensures ReferencesResolved(AddBeanType(st, name, id, now).store)
  {
    var r := AddBeanType(st, name, id, now);
    if r.result.Success? {
      var written := r.store.beanTypes.value;
      var earlier := written[..|written| - 1];
      StableSortIsPermutation(earlier, StoredBeans(st), OldestFirst);
      assert written == earlier + [r.result.value];
      forall i | 0 <= i < |StoredExtractions(r.store)|
        ensures HasBean(StoredBeans(r.store), StoredExtractions(r.store)[i].beanTypeId)
      {
        HasBeanPermutation(StoredBeans(st), written, StoredExtractions(st)[i].beanTypeId);
      }
    }
  }

  /** Adding an extraction keeps references resolved when the caller names a
      stored bean type; the repository itself does not check this. */
  lemma AddExtractionKeepsReferencesResolved(st: Store, input: NewExtractionInput, id: string, now: int)
    requires ReferencesResolved(st)
    requires HasBean(StoredBeans(st), input.beanTypeId)
    ensures ReferencesResolved(AddExtraction(st, input, id, now).store)
  {
    var r := AddExtraction(st, input, id, now);
    if r.result.Success? {
      var written := r.store.extractions.value;
      StableSortIsPermutation(written[1..], StoredExtractions(st), NewestFirst);
      assert written == [written[0]] + written[1..];
      forall i | 0 <= i < |written|
        ensures HasBean(StoredBeans(r.store), written[i].beanTypeId)
      {
        if i > 0 {
          assert written[i] == written[1..][i - 1];
          assert written[i] in multiset(StoredExtractions(st));
          var k :| 0 <= k < |StoredExtractions(st)| && StoredExtractions(st)[k] == written[i];
        }
      }
    }
  }

  /** Adding an extraction whose bean type is not stored leaves a dangling
      reference: referential integrity is the caller's job. */
  lemma AddExtractionAcceptsUnknownBeanType(st: Store, input: NewExtractionInput, id: string, now: int)
    requires AddExtraction(st, input, id, now).result.Success?
    requires !HasBean(StoredBeans(st), input.beanTypeId)
    ensures !ReferencesResolved(AddExtraction(st, input, id, now).store)
  {
    var r := AddExtraction(st, input, id, now);
    assert r.store.beanTypes == st.beanTypes;
    assert StoredExtractions(r.store)[0].beanTypeId == input.beanTypeId;
  }

  /** Stored extractions keep finite numeric fields through additions. */
  lemma AddExtractionKeepsNumbersFinite(st: Store, input: NewExtractionInput, id: string, now: int)
    requires NumbersFinite(st)
    ensures NumbersFinite(AddExtraction(st, input, id, now).store)
  {
    var r := AddExtraction(st, input, id, now);
    if r.result.Success? {
      var written := r.store.extractions.value;
      StableSortIsPermutation(written[1..], StoredExtractions(st), NewestFirst);
      forall i | 0 <= i < |written|
        ensures HasFiniteNumbers(written[i])
      {
        if i > 0 {
          assert written[i] == written[1..][i - 1];
          assert written[i] in multiset(StoredExtractions(st));
          var k :| 0 <= k < |StoredExtractions(st)| && StoredExtractions(st)[k] == written[i];
        }
      }
    }
  }

  /** Stored extractions keep finite numeric fields through deletions. */
  lemma DeleteExtractionKeepsNumbersFinite(st: Store, id: string)
    requires NumbersFinite(st)
    ensures NumbersFinite(DeleteExtraction(st, id).store)
  {
    var r := DeleteExtraction(st, id);
    if r.result.Success? {
      var written := r.store.extractions.value;
      var kept := Filter(StoredExtractions(st), ExtractionIdIsNot(id));
      StableSortIsPermutation(written, kept, NewestFirst);
      forall i | 0 <= i < |written|
        ensures HasFiniteNumbers(written[i])
      {
        assert written[i] in multiset(kept);
        assert written[i] in kept;
        var k :| 0 <= k < |StoredExtractions(st)| && StoredExtractions(st)[k] == written[i];
      }
    }
  }

  // The logbook walk-through: add a bean, log a shot with it, find the bean
  // protected while the shot exists, delete the shot, then the bean.

  const GujiName: string := "Ethiopia Guji"
  const Guji: BeanType := BeanType("b1", GujiName, 1000)
  const GujiShotInput: NewExtractionInput :=
    NewExtractionInput("b1", Number(Finite(15.0)), Number(Finite(18.0)), Number(Finite(36.0)), Number(Finite(30.0)), "")
  const GujiShot: Extraction := NewExtraction(GujiShotInput, "x1", 2000)

  lemma WalkAddBean()
    ensures AddBeanType(Store(Missing, Missing, true), GujiName, "b1", 1000) ==
      Step(Success(Guji), Store(Json([Guji]), Missing, true))
  {
    assert LeadingWhitespace(GujiName) == 0;
    assert GujiName[0..] == GujiName;
    assert TrailingWhitespace(GujiName) == 0;
    assert Trim(GujiName) == GujiName;
    assert Sort<BeanType>([], OldestFirst) == [];
    assert [] + [Guji] == [Guji];
  }

  lemma WalkListBean()
    ensures GetBeanTypes(Store(Json([Guji]), Missing, true)) == Success([Guji])
  {
    assert Sort([Guji], OldestFirst) == [Guji];
  }

  lemma WalkAddShot()
    ensures AddExtraction(Store(Json([Guji]), Missing, true), GujiShotInput, "x1", 2000) ==
      Step(Success(GujiShot), Store(Json([Guji]), Json([GujiShot]), true))
    ensures GetExtractions(Store(Json([Guji]), Json([GujiShot]), true)) == Success([GujiShot])
  {
    assert EnsureValidExtractionInput(GujiShotInput).Pass?;
    assert Sort<Extraction>([], NewestFirst) == [];
    assert [GujiShot] + [] == [GujiShot];
    assert Sort([GujiShot], NewestFirst) == [GujiShot];
  }

  lemma WalkRefuseBean()
    ensures DeleteBeanType(Store(Json([Guji]), Json([GujiShot]), true), "b1") ==
      Step(Success(InUse(1)), Store(Json([Guji]), Json([GujiShot]), true))
  {
    assert CountWhere([GujiShot], RefersTo("b1")) == 1;
  }

  lemma WalkDeleteShot()
    ensures DeleteExtraction(Store(Json([Guji]), Json([GujiShot]), true), "x1") ==
      Step(Success(()), Store(Json([Guji]), Json([]), true))
  {
    assert Sort([GujiShot], NewestFirst) == [GujiShot];
    assert Filter([GujiShot], ExtractionIdIsNot("x1")) == [];
  }

  lemma WalkDeleteBean()
    ensures DeleteBeanType(Store(Json([Guji]), Json([]), true), "b1") ==
      Step(Success(Deleted), Store(Json([]), Json([]), true))
  {
    assert CountWhere<Extraction>([], RefersTo("b1")) == 0;
    assert Sort([Guji], OldestFirst) == [Guji];
    assert Filter([Guji], BeanIdIsNot("b1")) == [];
  }
}

=== FILE: seqs.dfy ===
/** Order-preserving selection and counting over sequences. */
module Seqs {

  /** The elements of `s` that satisfy `keep`, in their original order
      (`Array.prototype.filter`). */
  function Filter<T>(s: seq<T>, keep: T -> bool): (r: seq<T>)
    ensures |r| <= |s|
    ensures forall x :: x in r ==> keep(x) && x in s
    ensures forall i :: 0 <= i < |s| && keep(s[i]) ==> s[i] in r
  {
    if s == [] then []
    else
      assert forall i :: 1 <= i < |s| ==> s[i] == s[1..][i - 1];
      (if keep(s[0]) then [s[0]] else []) + Filter(s[1..], keep)
  }

  /** Filter keeps exactly the copies of every element that satisfies `keep`. */
  lemma {:induction false} FilterMultiset<T>(s: seq<T>, keep: T -> bool)
    ensures forall x :: multiset(Filter(s, keep))[x] == if keep(x) then multiset(s)[x] else 0
  {
    if s != [] {
      FilterMultiset(s[1..], keep);
      assert s == [s[0]] + s[1..];
    }
  }

  /** Filter distributes over concatenation: it never reorders what it keeps. */
  lemma {:induction false} FilterConcat<T>(a: seq<T>, b: seq<T>, keep: T -> bool)
    ensures Filter(a + b, keep) == Filter(a, keep) + Filter(b, keep)
  {
    if a == [] {
      assert a + b == b;
    } else {
      assert (a + b)[0] == a[0];
      assert (a + b)[1..] == a[1..] + b;
      FilterConcat(a[1..], b, keep);
    }
  }

  /** Filtering with a predicate every element satisfies changes nothing. */
  lemma {:induction false} FilterAllKept<T>(s: seq<T>, keep: T -> bool)
    requires forall i :: 0 <= i < |s| ==> keep(s[i])
    ensures Filter(s, keep) == s
  {
    if s != [] {
      FilterAllKept(s[1..], keep);
    }
  }

  /** The number of elements of `s` that satisfy `p`, counted left to right
      (`Array.prototype.reduce` with a counter starting at 0). */
  function CountWhere<T>(s: seq<T>, p: T -> bool): (n: nat)
    ensures n <= |s|
    ensures n == |Filter(s, p)|
  {
    if s == [] then 0 else (if p(s[0]) then 1 else 0) + CountWhere(s[1..], p)
  }

  /** The count is positive exactly when some element satisfies `p`. */
  lemma {:induction false} CountPositiveIffExists<T>(s: seq<T>, p: T -> bool)
    ensures CountWhere(s, p) > 0 <==> exists i :: 0 <= i < |s| && p(s[i])
  {
    if s != [] {
      CountPositiveIffExists(s[1..], p);
      if !p(s[0]) && exists i :: 0 <= i < |s| && p(s[i]) {
        var i :| 0 <= i < |s| && p(s[i]);
        assert s[1..][i - 1] == s[i];
      }
    }
  }

  /** Counting does not depend on the order of the elements. */
  lemma CountPermutation<T>(a: seq<T>, b: seq<T>, p: T -> bool)
    requires multiset(a) == multiset(b)
    ensures CountWhere(a, p) == CountWhere(b, p)
  {
    FilterMultiset(a, p);
    FilterMultiset(b, p);
    assert multiset(Filter(a, p)) == multiset(Filter(b, p));
    assert |multiset(Filter(a, p))| == |Filter(a, p)|;
    assert |multiset(Filter(b, p))| == |Filter(b, p)|;
  }

  /** Sequences with the same multiset have the same elements. */
  lemma SameElements<T>(a: seq<T>, b: seq<T>)
    requires multiset(a) == multiset(b)
    ensures forall x :: x in a <==> x in b
  {
    assert forall x :: x in a <==> x in multiset(a);
    assert forall x :: x in b <==> x in multiset(b);
  }
}

=== FILE: stable_sort.dfy ===
/** A stable sort on an integer key, the behaviour of `Array.prototype.sort`
    with a comparator `(a, b) => key(a) - key(b)`. */
module StableSort {
  import opened Seqs

  /** Keys never decrease from left to right. */
  predicate Sorted<T>(s: seq<T>, key: T -> int) {
    forall i, j :: 0 <= i < j < |s| ==> key(s[i]) <= key(s[j])
  }

  /** The elements of `s` whose key is `k`, in their order in `s`. */
  function KeyRun<T>(s: seq<T>, key: T -> int, k: int): (r: seq<T>)
    ensures |r| <= |s|
  {
    if s == [] then []
    else (if key(s[0]) == k then [s[0]] else []) + KeyRun(s[1..], key, k)
  }

  /** `r` is `s` sorted by `key` with ties left in their order in `s`: the
      keys ascend, and for every key the records carrying it appear in `r`
      exactly as they appear in `s`. */
  ghost predicate IsStableSortOf<T>(r: seq<T>, s: seq<T>, key: T -> int) {
    && Sorted(r, key)
    && forall k :: KeyRun(r, key, k) == KeyRun(s, key, k)
  }

  /** Places `x` in front of the first element whose key is at least its own. */
  function Insert<T>(x: T, s: seq<T>, key: T -> int): (r: seq<T>)
    ensures |r| == |s| + 1
  {
    if s == [] || key(x) <= key(s[0]) then [x] + s
    else [s[0]] + Insert(x, s[1..], key)
  }

  lemma {:induction false} InsertMultiset<T>(x: T, s: seq<T>, key: T -> int)
    ensures multiset(Insert(x, s, key)) == multiset{x} + multiset(s)
  {
    if s != [] && key(x) > key(s[0]) {
      InsertMultiset(x, s[1..], key);
      assert s == [s[0]] + s[1..];
    }
  }

  lemma {:induction false} InsertSorted<T>(x: T, s: seq<T>, key: T -> int)
    requires Sorted(s, key)
    ensures Sorted(Insert(x, s, key), key)
    ensures Insert(x, s, key)[0] == x || (s != [] && Insert(x, s, key)[0] == s[0])
  {
    if s != [] && key(x) > key(s[0]) {
      InsertSorted(x, s[1..], key);
      var t := Insert(x, s[1..], key);
      assert key(s[0]) <= key(t[0]);
      forall i, j | 0 <= i < j < |[s[0]] + t|
        ensures key(([s[0]] + t)[i]) <= key(([s[0]] + t)[j])
      {
        if i > 0 {
          assert ([s[0]] + t)[i] == t[i - 1];
        }
      }
    }
  }

  /** Inserting `x` in front of equal keys keeps every key's run as if `x`
      had simply been put at the front. */
  lemma {:induction false} InsertRuns<T>(x: T, s: seq<T>, key: T -> int, k: int)
    requires Sorted(s, key)
    ensures KeyRun(Insert(x, s, key), key, k) == KeyRun([x] + s, key, k)
  {
    if s != [] && key(x) > key(s[0]) {
      InsertRuns(x, s[1..], key, k);
      var t := Insert(x, s[1..], key);
      assert ([s[0]] + t)[1..] == t;
      assert ([x] + s[1..])[1..] == s[1..];
      assert ([x] + s)[1..] == s;
    }
  }

  /** Stable insertion sort. */
  function Sort<T>(s: seq<T>, key: T -> int): (r: seq<T>)
    ensures IsStableSortOf(r, s, key)
    ensures multiset(r) == multiset(s)
  {
    if s == [] then []
    else
      var rest := Sort(s[1..], key);
      InsertSorted(s[0], rest, key);
      InsertMultiset(s[0], rest, key);
      assert s == [s[0]] + s[1..];
      assert forall k :: KeyRun(Insert(s[0], rest, key), key, k) == KeyRun(s, key, k) by {
        forall k ensures KeyRun(Insert(s[0], rest, key), key, k) == KeyRun(s, key, k) {
          InsertRuns(s[0], rest, key, k);
          assert ([s[0]] + rest)[1..] == rest;
        }
      }
      Insert(s[0], rest, key)
  }

  /** Every element of a key's run carries that key. */
  lemma {:induction false} KeyRunKeys<T>(s: seq<T>, key: T -> int, k: int)
    ensures forall x :: x in KeyRun(s, key, k) ==> key(x) == k && x in s
  {
    if s != [] {
      KeyRunKeys(s[1..], key, k);
    }
  }

  /** A sequence with no elements has no runs, and a non-empty one has a run
      starting with its first element. */
  lemma SameRunsSameEmptiness<T>(a: seq<T>, b: seq<T>, key: T -> int)
    requires forall k :: KeyRun(a, key, k) == KeyRun(b, key, k)
    ensures a == [] <==> b == []
  {
    if a != [] {
      assert KeyRun(b, key, key(a[0])) != [];
    }
    if b != [] {
      assert KeyRun(a, key, key(b[0])) != [];
    }
  }

  /** In a sorted sequence, nothing in a non-empty run of key `k` precedes a
      key smaller than the first key. */
  lemma FirstKeyIsLeast<T>(s: seq<T>, key: T -> int, k: int)
    requires Sorted(s, key)
    requires KeyRun(s, key, k) != []
    ensures s != [] && key(s[0]) <= k
  {
    KeyRunKeys(s, key, k);
    var x := KeyRun(s, key, k)[0];
    assert x in KeyRun(s, key, k);
    var i :| 0 <= i < |s| && s[i] == x;
  }

  /** Two sorted sequences with the same run for every key are equal: a
      stable sort has exactly one possible result. */
  lemma {:induction false} SortedSameRunsEqual<T>(a: seq<T>, b: seq<T>, key: T -> int)
    requires Sorted(a, key) && Sorted(b, key)
    requires forall k :: KeyRun(a, key, k) == KeyRun(b, key, k)
    ensures a == b
    decreases |a|
  {
    SameRunsSameEmptiness(a, b, key);
    if a != [] {
      var k := key(a[0]);
      FirstKeyIsLeast(b, key, k);
      FirstKeyIsLeast(a, key, key(b[0]));
      assert key(b[0]) == k;
      assert KeyRun(a, key, k) == [a[0]] + KeyRun(a[1..], key, k);
      assert KeyRun(b, key, k) == [b[0]] + KeyRun(b[1..], key, k);
      assert KeyRun(a, key, k) == KeyRun(b, key, k);
      assert KeyRun(a, key, k)[0] == a[0];
      assert KeyRun(b, key, k)[0] == b[0];
      forall k' ensures KeyRun(a[1..], key, k') == KeyRun(b[1..], key, k') {
        assert KeyRun(a, key, k') == KeyRun(b, key, k');
        if k' == k {
          assert KeyRun(a[1..], key, k') == KeyRun(a, key, k')[1..];
          assert KeyRun(b[1..], key, k') == KeyRun(b, key, k')[1..];
        } else {
          assert KeyRun(a, key, k') == KeyRun(a[1..], key, k');
          assert KeyRun(b, key, k') == KeyRun(b[1..], key, k');
        }
      }
      SortedSameRunsEqual(a[1..], b[1..], key);
      assert a == [a[0]] + a[1..];
      assert b == [b[0]] + b[1..];
    }
  }

  /** The stable sort of a sequence is unique. */
  lemma StableSortUnique<T>(r1: seq<T>, r2: seq<T>, s: seq<T>, key: T -> int)
    requires IsStableSortOf(r1, s, key) && IsStableSortOf(r2, s, key)
    ensures r1 == r2
  {
    SortedSameRunsEqual(r1, r2, key);
  }

  /** Sorting an already sorted sequence returns it unchanged. */
  lemma SortSortedIsIdentity<T>(s: seq<T>, key: T -> int)
    requires Sorted(s, key)
    ensures Sort(s, key) == s
  {
    StableSortUnique(Sort(s, key), s, s, key);
  }

  /** Sorting is idempotent. */
  lemma SortIdempotent<T>(s: seq<T>, key: T -> int)
    ensures Sort(Sort(s, key), key) == Sort(s, key)
  {
    SortSortedIsIdentity(Sort(s, key), key);
  }

  /** A stable sort keeps the same elements with the same multiplicities. */
  lemma {:induction false} KeyRunCounts<T>(s: seq<T>, key: T -> int, x: T)
    ensures multiset(KeyRun(s, key, key(x)))[x] == multiset(s)[x]
  {
    if s != [] {
      KeyRunCounts(s[1..], key, x);
      assert s == [s[0]] + s[1..];
    }
  }

  lemma StableSortIsPermutation<T>(r: seq<T>, s: seq<T>, key: T -> int)
    requires IsStableSortOf(r, s, key)
    ensures multiset(r) == multiset(s)
  {
    forall x ensures multiset(r)[x] == multiset(s)[x] {
      KeyRunCounts(r, key, x);
      KeyRunCounts(s, key, x);
    }
  }

  /** Selecting by any predicate commutes with selecting one key's run. */
  lemma {:induction false} FilterKeyRunCommute<T>(s: seq<T>, key: T -> int, k: int, keep: T -> bool)
    ensures KeyRun(Filter(s, keep), key, k) == Filter(KeyRun(s, key, k), keep)
  {
    if s != [] {
      FilterKeyRunCommute(s[1..], key, k, keep);
      var head := if keep(s[0]) then [s[0]] else [];
      assert Filter(s, keep) == head + Filter(s[1..], keep);
      KeyRunConcat(head, Filter(s[1..], keep), key, k);
      var run := if key(s[0]) == k then [s[0]] else [];
      FilterConcat(run, KeyRun(s[1..], key, k), keep);
    }
  }

  lemma {:induction false} KeyRunConcat<T>(a: seq<T>, b: seq<T>, key: T -> int, k: int)
    ensures KeyRun(a + b, key, k) == KeyRun(a, key, k) + KeyRun(b, key, k)
  {
    if a == [] {
      assert a + b == b;
    } else {
      var ab := a + b;
      assert ab[0] == a[0];
      assert ab[1..] == a[1..] + b;
      KeyRunConcat(a[1..], b, key, k);
      assert KeyRun(ab, key, k) == (if key(a[0]) == k then [a[0]] else []) + KeyRun(a[1..] + b, key, k);
    }
  }

  /** A selection from a sorted sequence is sorted. */
  lemma {:induction false} FilterSorted<T>(s: seq<T>, key: T -> int, keep: T -> bool)
    requires Sorted(s, key)
    ensures Sorted(Filter(s, keep), key)
  {
    if s != [] {
      FilterSorted(s[1..], key, keep);
      var t := Filter(s[1..], keep);
      if keep(s[0]) {
        forall i, j | 0 <= i < j < |[s[0]] + t|
          ensures key(([s[0]] + t)[i]) <= key(([s[0]] + t)[j])
        {
          assert ([s[0]] + t)[j] == t[j - 1];
          if i > 0 {
            assert ([s[0]] + t)[i] == t[i - 1];
          } else {
            assert t[j - 1] in t;
            assert t[j - 1] in s[1..];
          }
        }
      }
    }
  }

  /** Removing records from the sorted sequence gives the stable sort of the
      original sequence with the same records removed. */
  lemma FilterAfterSort<T>(s: seq<T>, key: T -> int, keep: T -> bool)
    ensures IsStableSortOf(Filter(Sort(s, key), keep), Filter(s, keep), key)
  {
    FilterSorted(Sort(s, key), key, keep);
    forall k ensures KeyRun(Filter(Sort(s, key), keep), key, k) == KeyRun(Filter(s, keep), key, k) {
      FilterKeyRunCommute(Sort(s, key), key, k, keep);
      FilterKeyRunCommute(s, key, k, keep);
    }
  }
}

=== FILE: types.dfy ===
/** The persisted record shapes. */
module Types {
  import Js

  /** A named coffee the user defines once; `createdAt` is milliseconds since
      the epoch. */
  datatype BeanType = BeanType(id: string, name: string, createdAt: int)

  /** A value in a numeric field of an extraction. The record type says
      `number`, but what arrives at run time need not be one. */
  datatype NumericField = Number(n: Js.Number) | NotNumber

  /** `typeof value === "number" && Number.isFinite(value)`. */
  predicate IsFiniteNumber(f: NumericField) {
    f.Number? && Js.IsFinite(f.n)
  }

  /** One logged shot. `beanTypeId` refers to a bean type by value only. */
  datatype Extraction = Extraction(
    id: string,
    createdAt: int,
    beanTypeId: string,
    grindSetting: NumericField,
    weightIn: NumericField,
    weightOut: NumericField,
    timeSec: NumericField,
    notes: string)

  /** What a caller supplies to add an extraction: everything but the id and
      the timestamp. */
  datatype NewExtractionInput = NewExtractionInput(
    beanTypeId: string,
    grindSetting: NumericField,
    weightIn: NumericField,
    weightOut: NumericField,
    timeSec: NumericField,
    notes: string)

  /** The four numeric fields of an extraction are finite numbers. */
  predicate HasFiniteNumbers(e: Extraction) {
    && IsFiniteNumber(e.grindSetting)
    && IsFiniteNumber(e.weightIn)
    && IsFiniteNumber(e.weightOut)
    && IsFiniteNumber(e.timeSec)
  }
}

=== FILE: wrappers.dfy ===
/** Failure-carrying results used by every operation of the model. */
module Wrappers {

  /** A value that may be absent (the source's `T | null`). */
  datatype Option<+T> = None | Some(value: T)

  /** Either a value or the error the source would have thrown. */
  datatype Result<+R, +E> = Success(value: R) | Failure(error: E)

  /** A check that either passes or fails with an error and carries no value. */
  datatype Outcome<+E> = Pass | Fail(error: E)
}
